=== FILE: README.md ===
# TimeCapsule core in Dafny

A functional model of the TimeCapsule back end and the pure parts of its dashboard.
Users write "time capsule" messages that stay locked until an unlock date.
A capsule can be shared with registered recipients by email.

The model covers:

- **Capsule record** (`CapsuleSchema`, models/timeCapsule.js):
  - required fields;
  - the `status` enumeration and its `locked` default;
  - the `isPublic` default;
  - the trimming setter on `title`;
  - the helpers `isReadyToUnlock`, `findPublicCapsules` and `findUserCapsules`.
- **Capsule lifecycle service** (`CapsuleService`, services/timeCapsuleService.js):
  - create;
  - the locked-to-unlocked sweep;
  - read, with its ordered not-found / access / time checks;
  - the per-user listing;
  - update, delete and send, which only the creator may do.
- **Credential rules** (`UserService`, services/userServices.js):
  - duplicate detection on registration;
  - a login failure that looks the same whatever its cause, for a string password;
  - the public user projection and the token claims.
- **Dashboard client logic** (`Dashboard`, frontend/src/components/Dashboard.jsx):
  - the create-form check and the payload it posts;
  - recipient-email parsing;
  - the client-side delete guard;
  - the local list update after a delete.
- **String semantics** (`Text`): JavaScript `trim`, `split` and `join`, which the parsing and the schema rely on.

How the model represents the system:

- The capsule store is a `map<CapsuleId, Capsule>`.
- The user collection is a `seq<User>` in storage order, because `findOne` answers with the first match.
- Every operation is a pure function that returns a `Result` holding the new store and its value, or an error.
- The current time is an explicit parameter `now`, in milliseconds.
- Fresh ids are parameters. An id that is already taken gives the model-only error `DuplicateId`.

## Where the code is permissive

The model keeps each of these behaviours as the code has it.

- **Create keeps caller-supplied fields.** `createCapsule` spreads the caller's data and overrides only `creator`. A caller-supplied `status: 'unlocked'`, `recipients` or `isPublic` is therefore stored. See `CapsuleService.CreateKeepsSuppliedFields`.
- **Delete has no status check.** `deleteCapsule` does not check the status, so the server deletes unlocked capsules. Only the dashboard refuses. See `CapsuleService.DeleteIgnoresStatus` and `Dashboard.CheckDeleteRefusesUnlocked`.
- **Update passes the request body whole.** `findByIdAndUpdate` receives `updateData` as it came, so an update by the creator may also change `creator`, `recipients` and `isPublic` (`CapsuleService.ApplyPatch`). The schema's validators would not block those fields even if they ran. Because no validators run, the update may also store a blank title or an empty content. A later send of that capsule then fails, because `save()` validates the whole document again (`CapsuleService.BlankTitleUpdateBlocksSend`).

## Model

| member | source | states |
|---|---|---|
| CapsuleService.AnyRecipientIs | services/timeCapsuleService.js:99 | the `some` scan over recipients answers true exactly when the user is among the recipients |
| CapsuleService.HasAccess | services/timeCapsuleService.js:96-100 | access holds exactly when the capsule is public, or the user created it, or the user is a recipient |
| CapsuleService.PublicCapsulesAreReadableByAll | services/timeCapsuleService.js:96-100 | every capsule that `findPublicCapsules` lists passes the access check for any user |
| CapsuleService.CreateCapsule | services/timeCapsuleService.js:4-10 | create succeeds exactly when the data, with the caller as creator, validates (and the id is fresh); the stored capsule has the caller as creator and is the only store change; a validation failure reports the failing paths and never the creator path |
| CapsuleService.CreateIgnoresSuppliedCreator | services/timeCapsuleService.js:5-8 | a creator named in the data makes no difference to the outcome: the caller always becomes the creator |
| CapsuleService.CreateKeepsSuppliedFields | services/timeCapsuleService.js:5-8 | supplied recipients, public flag, media, content and date are stored as given; a supplied "unlocked" status is kept, and "locked" or no status gives Locked |
| CapsuleService.DueForUnlock | services/timeCapsuleService.js:15-18 | the `updateMany` filter: locked, with the unlock date at or before `now`; CheckAndUpdateStatus states what the sweep does to exactly these capsules |
| CapsuleService.CheckAndUpdateStatus | services/timeCapsuleService.js:11-23 | the sweep keeps the same ids, leaves no locked capsule with its date reached, unlocks exactly those, and leaves every other capsule unchanged |
| CapsuleService.SweepLeavesOthersAlone | services/timeCapsuleService.js:14-22 | capsules that unlock after `now`, and capsules already unlocked, are untouched by the sweep |
| CapsuleService.SweepUnlocksExactlyTheReady | services/timeCapsuleService.js:14-22 | a locked capsule is unlocked by the sweep exactly when `isReadyToUnlock` holds at that time |
| CapsuleService.SweepIdempotent | services/timeCapsuleService.js:11-23 | two sweeps at the same time equal one |
| CapsuleService.SweepLaterSubsumesEarlier | services/timeCapsuleService.js:11-23 | an earlier sweep followed by a later one equals the later one alone |
| CapsuleService.GetCapsule | services/timeCapsuleService.js:25-45 | checks run in order: not found, then access denied, then still locked exactly when the status is locked and `now` is before the unlock date; the read succeeds exactly when the capsule exists, is accessible and is not held by that time gate, and then returns the stored capsule unchanged |
| CapsuleService.GetOnlyReturnsReadable | services/timeCapsuleService.js:34-44 | a returned capsule is accessible to the caller and is unlocked or ready to unlock |
| CapsuleService.GetStaysReadable | services/timeCapsuleService.js:39-42 | a capsule readable at one time gives the same answer at every later time |
| CapsuleService.GetUnaffectedBySweep | services/timeCapsuleService.js:39-42 | after a sweep at or before the read time, the success or error kind is unchanged (the read checks the date itself), and a returned capsule is the swept one |
| CapsuleService.GetUserCapsules | services/timeCapsuleService.js:47-54 | the listing holds exactly the capsules the user created or receives, as stored |
| CapsuleService.UserCapsulesAreAccessible | services/timeCapsuleService.js:47-54 | every listed capsule passes the access check; an accessible capsule is missing from the list only when its access comes from being public |
| CapsuleService.CreatedCapsulesAreListed | services/timeCapsuleService.js:47-54 | every capsule `findUserCapsules` would return for the user is in the user's listing |
| CapsuleService.ApplyPatch | services/timeCapsuleService.js:73-77 | each supplied field replaces the stored one (the title trimmed by its setter) and each absent field is kept, including creator and status |
| CapsuleService.UpdateCapsule | services/timeCapsuleService.js:56-78 | not found, then not the creator, then already unlocked; success exactly for the creator of a locked capsule, storing the patched capsule under the same id |
| CapsuleService.UpdateChangesOnlyTarget | services/timeCapsuleService.js:73-77 | the creator's update of a locked capsule succeeds, keeps the same ids and changes no capsule but the target |
| CapsuleService.DeleteCapsule | services/timeCapsuleService.js:80-94 | not found, then not the creator; success exactly for the creator, removing that id and nothing else |
| CapsuleService.DeleteIgnoresStatus | services/timeCapsuleService.js:80-94 | the creator can delete an unlocked capsule, while an update of the same capsule is refused as already unlocked |
| CapsuleService.FindByEmails | services/timeCapsuleService.js:116 | the users found are exactly the stored users whose email is among those asked for, each as many times as it is stored (a repeated email does not find a user twice) |
| CapsuleService.IdsOf | services/timeCapsuleService.js:124 | the resolved users become their ids, one per user, in order |
| CapsuleService.SendCapsule | services/timeCapsuleService.js:102-129 | not found, then not the creator; for the creator, fewer users found than emails given is refused as unregistered recipients, and otherwise a stored document whose title or content fails `save()`'s validation is refused with those paths; success (exactly when neither happens) replaces the recipients with the found ids, sets the status to locked and changes nothing else |
| CapsuleService.FoundCount | services/timeCapsuleService.js:116-119 | with unique user emails, the number of users found is the number of distinct requested emails that are registered |
| CapsuleService.SendSucceedsIff | services/timeCapsuleService.js:114-121 | with unique user emails, the creator's send succeeds exactly when the emails are pairwise distinct and all registered and the stored document passes validation, so a repeated email fails it too |
| CapsuleService.BlankTitleUpdateBlocksSend | services/timeCapsuleService.js:73-77 | the creator's update with a whitespace-only title succeeds; a later send by the capsule's creator then fails, and with every email registered it fails validation on the title |
| CapsuleService.SendRelocksAndOverwrites | services/timeCapsuleService.js:123-126 | a successful send leaves the capsule locked, and the previous recipients make no difference to the result |
| CapsuleService.SendGrantsAccessToResolvedUsers | services/timeCapsuleService.js:123-126 | after a send, a user has access exactly when the capsule is public, they created it, or their registered email was sent to |
| CapsuleSchema.ParseStatus | models/timeCapsule.js:33-37 | the enum accepts exactly the two spellings "locked" and "unlocked" |
| CapsuleSchema.ParseStatusName | models/timeCapsule.js:33-37 | each status spelling is accepted back as that status |
| CapsuleSchema.InvalidPaths | models/timeCapsule.js:3-37 | the failing paths are exactly those whose validator rejects the data |
| CapsuleSchema.NoInvalidPaths | models/timeCapsule.js:3-37 | no validator fails exactly when creator, a non-blank title, a non-empty content and a date are present and any status is in the enum |
| CapsuleSchema.Build | models/timeCapsule.js:3-40 | a document validates exactly when creator, a non-blank title, a non-empty content and a date are present and any status is in the enum; the failure lists every failing path; on success the title is trimmed, the other fields are stored as supplied, and absent ones get defaults (no recipients or media, not public, locked) |
| CapsuleSchema.StoredInvalidPaths | models/timeCapsule.js:13-21 | among the values a `Capsule` can hold, `save()` rejects a stored document exactly on a blank title and on an empty content |
| CapsuleSchema.BuiltCapsuleSaves | models/timeCapsule.js:3-40 | every document `create` accepts passes the validation `save()` runs again |
| CapsuleSchema.IsReadyToUnlock | models/timeCapsule.js:42-44 | a capsule is ready once `now` has reached its unlock date; SweepUnlocksExactlyTheReady and GetOnlyReturnsReadable tie it to the sweep and the read |
| CapsuleSchema.FindPublicCapsules | models/timeCapsule.js:47-49 | exactly the public capsules, as stored |
| CapsuleSchema.InsertByUnlockDate | models/timeCapsule.js:53 | inserting into a list sorted by unlock date adds exactly that id and keeps the list sorted |
| CapsuleSchema.FindUserCapsules | models/timeCapsule.js:52-54 | the result is a permutation of the ids the user created, sorted by ascending unlock date |
| CapsuleSchema.FindUserCapsulesExact | models/timeCapsule.js:52-54 | that result lists exactly the capsules the user created, recipients not counting, each once |
| UserService.FindByEmailOrUsername | services/userServices.js:10 | a match shares the email or the username; no match means no stored user shares either |
| UserService.FindByEmail | services/userServices.js:21 | a match is the first stored user with the email; no match means no user has it |
| UserService.GenerateToken | services/userServices.js:28-41 | the session for a user: claims `{ id, role }` with a 24-hour expiry and the public projection; GenerateTokenIgnoresPassword states its properties |
| UserService.GenerateTokenIgnoresPassword | services/userServices.js:28-41 | the session carries only id, username, email and role, with claims id and role and a 24-hour expiry; the password never affects it |
| UserService.Register | services/userServices.js:6-18 | refused as already existing exactly when a stored user has the same email or username; succeeds exactly when email, username and id are all unused, and then appends exactly the new user and returns its session (token claims and projection) |
| UserService.RegisterPreservesUniqueness | services/userServices.js:10-17 | unique emails, usernames and ids stay unique after a registration |
| UserService.Login | services/userServices.js:20-26 | every failure is the same invalid-credentials error; an unknown email always fails; success means a stored user with that email whose password matches, answered with its session |
| UserService.LoginFindsTheUser | services/userServices.js:20-25 | with unique users, login with a stored email succeeds exactly when its password matches, answering that user's projection |
| Text.TrimStart | models/timeCapsule.js:16 | the result is a suffix of the input, the removed prefix is whitespace only, and the result does not start with whitespace |
| Text.TrimEnd | models/timeCapsule.js:16 | the result is a prefix of the input, the removed suffix is whitespace only, and the result does not end with whitespace |
| Text.Trim | frontend/src/components/Dashboard.jsx:76 | the result is no longer than the input and neither starts nor ends with whitespace |
| Text.TrimIsInfix | frontend/src/components/Dashboard.jsx:76 | the trimmed string is an infix of the input with only whitespace cut at both ends |
| Text.TrimKeepsCharacters | frontend/src/components/Dashboard.jsx:76 | every character of the trimmed string occurs in the input |
| Text.TrimBlank | frontend/src/components/Dashboard.jsx:69 | trimming gives the empty string exactly when the input is whitespace only |
| Text.TrimIdempotent | frontend/src/components/Dashboard.jsx:81-82 | trimming an already trimmed string changes nothing |
| Text.Split | frontend/src/components/Dashboard.jsx:75 | there is at least one piece and no piece contains the separator |
| Text.SplitPieceCharacters | frontend/src/components/Dashboard.jsx:75 | every character of a piece occurs in the split string |
| Text.JoinSplit | frontend/src/components/Dashboard.jsx:75 | joining the pieces with the separator gives back the string |
| Text.SplitAppend | frontend/src/components/Dashboard.jsx:75 | splitting `a + sep + b` gives the pieces of `a` followed by the pieces of `b` |
| Text.SplitCons | frontend/src/components/Dashboard.jsx:75 | a leading separator starts a new empty piece; any other leading character joins the first piece |
| Text.SplitWithoutSeparator | frontend/src/components/Dashboard.jsx:75 | a string without the separator is one piece |
| Text.SplitJoin | frontend/src/components/Dashboard.jsx:75 | splitting a join of separator-free pieces gives back the pieces |
| Dashboard.TrimEach | frontend/src/components/Dashboard.jsx:76 | each entry is the trim of the piece at the same position |
| Dashboard.DropEmpty | frontend/src/components/Dashboard.jsx:77 | exactly the non-empty entries survive |
| Dashboard.ParseRecipients | frontend/src/components/Dashboard.jsx:74-77 | every parsed recipient is non-empty, contains no comma, and neither starts nor ends with whitespace |
| Dashboard.ParsedEntries | frontend/src/components/Dashboard.jsx:74-77 | trimmed, non-empty comma-free pieces are well-formed entries |
| Dashboard.ParseRecipientsBlank | frontend/src/components/Dashboard.jsx:74-77 | input made only of commas and whitespace parses to no recipients |
| Dashboard.TrimEachAppend | frontend/src/components/Dashboard.jsx:76 | trimming each entry distributes over concatenation |
| Dashboard.DropEmptyAppend | frontend/src/components/Dashboard.jsx:77 | dropping empty entries distributes over concatenation |
| Dashboard.ParseRecipientsAppend | frontend/src/components/Dashboard.jsx:74-77 | the recipients of `a,b` are those of `a` followed by those of `b` |
| Dashboard.ParseRecipientsSingle | frontend/src/components/Dashboard.jsx:74-77 | a comma-free entry parses to its trim, or to nothing when blank |
| Dashboard.PrepareCreate | frontend/src/components/Dashboard.jsx:69-88 | refused exactly when the trimmed title or message is empty or the date is missing; otherwise the payload is locked, private, with no recipients or media and the trimmed title and message, and the parsed emails go to `send` |
| Dashboard.SendsToRecipients | frontend/src/components/Dashboard.jsx:95 | the send request is made only when at least one recipient was parsed; BlankRecipientsSendNothing uses it |
| Dashboard.BlankRecipientsSendNothing | frontend/src/components/Dashboard.jsx:95 | a recipient field of commas and whitespace leads to no send request |
| Dashboard.CreatedFromFormIsLockedAndPrivate | frontend/src/components/Dashboard.jsx:80-92 | a form with a non-blank title and message and a date passes the client check, and the server accepts its payload under a fresh id, storing a locked, private capsule of the caller with the trimmed title and message |
| Dashboard.FindListed | frontend/src/components/Dashboard.jsx:136 | a match is the first entry of the list with the id; no match means no entry has it |
| Dashboard.CheckDelete | frontend/src/components/Dashboard.jsx:123-145 | refusals in order (no id, not confirmed, not in the list, not locked); for a confirmed id in the list, the request goes out exactly when its first entry is locked, and is otherwise refused as not locked |
| Dashboard.CheckDeleteRefusesUnlocked | frontend/src/components/Dashboard.jsx:142-145 | with ids listed once, no delete request is made for a capsule the list shows as unlocked |
| Dashboard.RemoveFromList | frontend/src/components/Dashboard.jsx:163 | entries with another id keep their count, and no entry with the deleted id remains |
| Dashboard.RemoveFromListAppend | frontend/src/components/Dashboard.jsx:163 | removal works piecewise, so the remaining entries keep their relative order |
| Dashboard.RemoveFromListAbsent | frontend/src/components/Dashboard.jsx:163 | a list without the id is left exactly as it is |

## Left out

- Persistence: the MongoDB driver, `timestamps`, and the extra user fields that `populate` attaches to returned capsules.
- ObjectId comparisons through `toString()` are modelled as plain equality of ids.
- CapsuleService.GetCapsule: compares ids, not what the source compares. `getCapsule` populates `creator` and `recipients` before calling `hasAccess` (services/timeCapsuleService.js:26-28). So `capsule.creator.toString()` and `r.toString()` at lines 98-99 stringify whole user documents, not ids. In the source, that check can then pass only through `isPublic`, and a private capsule is denied even to its creator and recipients. The model compares the ids, which is the access rule `hasAccess` states and the other operations apply.
- Failures of the store itself (a store that cannot be reached) are not modelled. Every call is atomic and sequential, with no concurrency between the sweep and the other operations.
- Wall-clock time: `new Date()` becomes the parameter `now`.
- `unlockDate` values are already times. Parsing and formatting dates (`new Date(...).toISOString()` in the dashboard) are not modelled.
- Password hashing: `bcrypt.compare` is the function parameter `passwordMatches`. The user model's hashing hook and its field defaults and validators are not part of this model.
- JWT signing: the token is represented by the claims it would sign.
- Id generation: new ids are parameters. `DuplicateId` stands for the store's unique `_id` constraint.
- The controllers, the routes, the server bootstrap, the authentication context, and all rendering, toasts and HTTP calls in the dashboard.
- CapsuleService.UpdateCapsule: a patch field is either absent or a well-typed value. The request body can also hold values the model cannot express, with these consequences in the source:
  - An out-of-enum `status` is stored, because no validators run.
  - A `null` field is stored as null. A stored null `unlockDate` makes a later send fail in `save()` on the required `unlockDate`. A stored null `creator` makes a later update, delete or send throw at `capsule.creator.toString()` (services/timeCapsuleService.js:64, 88, 110).
  - A value of the wrong type (such as a non-date `unlockDate`) makes the update itself fail with a cast error.
  - So "success exactly for the creator of a locked capsule" is promised only for well-typed patches. `CapsuleSchema.StoredInvalidPaths` covers only the values a `Capsule` can hold.
- CapsuleService.CreateCapsule: the request body is typed, each field either absent or a value of the schema's type. In the source, a value Mongoose cannot cast fails validation on a path the model has no `Path` for. Examples are `isPublic: "maybe"` and a `recipients` entry that is not an ObjectId. So the success promise holds only for well-typed bodies.
- CapsuleService.SendCapsule: `recipientEmails` is typed as a list of strings. In the source, a body without it throws a TypeError at `recipientEmails.length` (services/timeCapsuleService.js:119). A single string is compared by its character count. So the success promise holds only when an array of strings is sent.
- UserService.Login: the password is typed as a string, and `passwordMatches` always answers. `bcrypt.compare` instead rejects a non-string candidate (for example a missing `password` in the request body) with an "Illegal arguments" error. Because of the `!user ||` short-circuit (services/userServices.js:22), that happens only for a registered email. The login handler then answers with that message rather than "Invalid credentials" (controllers/userController.js:18-20). The uniform failure the model proves holds only for string passwords.
- CapsuleService.CheckAndUpdateStatus: returns only the new store. The source discards the count of modified documents.
- CapsuleSchema.FindUserCapsules: the order among capsules with equal unlock dates is left open, as the database leaves it.

=== FILE: capsule_schema.dfy ===
/**
  The persisted time-capsule record: required fields, defaults, the status
  enumeration, and the model's own helpers (`isReadyToUnlock`,
  `findPublicCapsules`, `findUserCapsules`).
*/
module CapsuleSchema {
  import opened Wrappers
  import Text
  import UserService

  /** A capsule refers to its users by their user ids. */
  type UserId = UserService.UserId
  type CapsuleId = nat

  /** Time in milliseconds since the epoch, as a JavaScript `Date` holds it. */
  type Time = int

  datatype Status = Locked | Unlocked

  /** The stored spelling of a status. */
  function StatusName(st: Status): string {
    match st
    case Locked => "locked"
    case Unlocked => "unlocked"
  }

  /** The enum check on `status`: only the two spellings are accepted. */
  function ParseStatus(name: string): (r: Option<Status>)
    ensures r.Some? ==> StatusName(r.value) == name
    ensures r.None? ==> forall st :: StatusName(st) != name
  {
    if name == "locked" then Some(Locked)
    else if name == "unlocked" then Some(Unlocked)
    else None
  }

  /** Every status spelling is accepted back as that status. */
  lemma ParseStatusName(st: Status)
    ensures ParseStatus(StatusName(st)) == Some(st)
  {
  }

  /** A stored capsule document (its id is the key it is stored under). */
  datatype Capsule = Capsule(
    creator: UserId,
    recipients: seq<UserId>,
    title: string,
    content: string,
    mediaUrls: seq<string>,
    unlockDate: Time,
    isPublic: bool,
    status: Status)

  /**
    The fields a caller hands to `create`; any of them may be missing. `status`
    is the raw string the caller sent, checked against the enumeration.
  */
  datatype CapsuleData = CapsuleData(
    creator: Option<UserId>,
    recipients: Option<seq<UserId>>,
    title: Option<string>,
    content: Option<string>,
    mediaUrls: Option<seq<string>>,
    unlockDate: Option<Time>,
    isPublic: Option<bool>,
    status: Option<string>)

  /** The document paths that carry a validator. */
  datatype Path = CreatorPath | TitlePath | ContentPath | UnlockDatePath | StatusPath

  /** A failed save reports every path whose validator failed. */
  datatype ValidationError = ValidationError(paths: set<Path>)

  /** `title` is trimmed by its setter before `required` looks at it. */
  predicate TitleOk(data: CapsuleData) {
    data.title.Some? && Text.Trim(data.title.value) != []
  }

  /** `required` on a String rejects a missing value and the empty string. */
  predicate ContentOk(data: CapsuleData) {
    data.content.Some? && data.content.value != []
  }

  predicate StatusOk(data: CapsuleData) {
    data.status.None? || ParseStatus(data.status.value).Some?
  }

  /** Whether the validator on path `p` accepts `data`. */
  predicate PathValid(data: CapsuleData, p: Path) {
    match p
    case CreatorPath => data.creator.Some?
    case TitlePath => TitleOk(data)
    case ContentPath => ContentOk(data)
    case UnlockDatePath => data.unlockDate.Some?
    case StatusPath => StatusOk(data)
  }

  const AllPaths: set<Path> := {CreatorPath, TitlePath, ContentPath, UnlockDatePath, StatusPath}

  function InvalidPaths(data: CapsuleData): (r: set<Path>)
    ensures forall p :: p in r <==> !PathValid(data, p)
  {
    set p | p in AllPaths && !PathValid(data, p)
  }

  /**
    Building and validating a document from caller data, as `Model.create`
    does: defaults fill the absent optional fields and validation reports every
    failing path at once.
  */
  function Build(data: CapsuleData): (r: Result<Capsule, ValidationError>)
    ensures r.Ok? <==> data.creator.Some? && TitleOk(data) && ContentOk(data)
                       && data.unlockDate.Some? && StatusOk(data)
    ensures r.Err? ==> r.error.paths != {}
    ensures r.Err? ==> forall p :: p in r.error.paths <==> !PathValid(data, p)
    ensures r.Ok? ==> && r.value.creator == data.creator.value
                      && r.value.title == Text.Trim(data.title.value)
                      && r.value.content == data.content.value
                      && r.value.unlockDate == data.unlockDate.value
    ensures r.Ok? ==> && r.value.recipients == data.recipients.GetOr([])
                      && r.value.mediaUrls == data.mediaUrls.GetOr([])
                      && r.value.isPublic == data.isPublic.GetOr(false)
    ensures r.Ok? && data.status.None? ==> r.value.status == Locked
    ensures r.Ok? && data.status.Some? ==> StatusName(r.value.status) == data.status.value
  {
    var paths := InvalidPaths(data);
    NoInvalidPaths(data);
    if paths != {} then
      Err(ValidationError(paths))
    else
      Ok(Capsule(
           creator := data.creator.value,
           recipients := data.recipients.GetOr([]),
           title := Text.Trim(data.title.value),
           content := data.content.value,
           mediaUrls := data.mediaUrls.GetOr([]),
           unlockDate := data.unlockDate.value,
           isPublic := data.isPublic.GetOr(false),
           status := if data.status.None? then Locked else ParseStatus(data.status.value).value))
  }

  /**
    The paths `save()` rejects when it validates a stored document again, among
    the values a `Capsule` can hold: the `required` check on the stored title
    and content. The other required paths and the status enumeration hold for
    every `Capsule` by construction (a stored null or out-of-enum value is not
    expressible here).
  */
  function StoredInvalidPaths(c: Capsule): (r: set<Path>)
    ensures TitlePath in r <==> c.title == []
    ensures ContentPath in r <==> c.content == []
    ensures r <= {TitlePath, ContentPath}
  {
    (if c.title == [] then {TitlePath} else {}) + (if c.content == [] then {ContentPath} else {})
  }

  /** A document that `create` accepted passes the validators `save()` runs again. */
  lemma BuiltCapsuleSaves(data: CapsuleData)
    requires Build(data).Ok?
    ensures StoredInvalidPaths(Build(data).value) == {}
  {
    var c := Build(data).value;
    assert c.title != [];
    assert TitlePath !in StoredInvalidPaths(c) && ContentPath !in StoredInvalidPaths(c);
  }

  /** No validator fails exactly when every required field is present and valid. */
  lemma NoInvalidPaths(data: CapsuleData)
    ensures InvalidPaths(data) == {} <==>
              data.creator.Some? && TitleOk(data) && ContentOk(data) && data.unlockDate.Some? && StatusOk(data)
  {
    var paths := InvalidPaths(data);
    if paths == {} {
      assert CreatorPath !in paths && TitlePath !in paths && ContentPath !in paths;
      assert UnlockDatePath !in paths && StatusPath !in paths;
    } else {
      var p :| p in paths;
      assert !PathValid(data, p);
    }
  }

  /** `isReadyToUnlock`: the unlock date has been reached at time `now`. */
  predicate IsReadyToUnlock(c: Capsule, now: Time) {
    now >= c.unlockDate
  }

  /** `findPublicCapsules`: the public capsules of the store, under their ids. */
  function FindPublicCapsules(store: map<CapsuleId, Capsule>): (r: map<CapsuleId, Capsule>)
    ensures forall k :: k in r <==> k in store && store[k].isPublic
    ensures forall k :: k in r ==> r[k] == store[k]
  {
    map k | k in store && store[k].isPublic :: store[k]
  }

  /** The unlock date of a stored capsule, used as the sort key. */
  function DateOf(store: map<CapsuleId, Capsule>, k: CapsuleId): Time {
    if k in store then store[k].unlockDate else 0
  }

  /** `ids` are listed in ascending unlock-date order. */
  predicate SortedByUnlockDate(store: map<CapsuleId, Capsule>, ids: seq<CapsuleId>) {
    forall i, j :: 0 <= i < j < |ids| ==> DateOf(store, ids[i]) <= DateOf(store, ids[j])
  }

  /** Inserts `k` into the sorted list `ids` before the first later-unlocking capsule. */
  function InsertByUnlockDate(store: map<CapsuleId, Capsule>, ids: seq<CapsuleId>, k: CapsuleId): (r: seq<CapsuleId>)
    requires SortedByUnlockDate(store, ids)
    ensures multiset(r) == multiset(ids) + multiset{k}
    ensures SortedByUnlockDate(store, r)
  {
    if |ids| == 0 then [k]
    else if DateOf(store, k) <= DateOf(store, ids[0]) then
      SortedCons(store, k, ids);
      [k] + ids
    else
      var tail := InsertByUnlockDate(store, ids[1..], k);
      InsertedTailBound(store, ids, k, tail);
      SortedCons(store, ids[0], tail);
      assert ids == [ids[0]] + ids[1..];
      [ids[0]] + tail
  }

  /** Putting in front an element that unlocks no later than the first keeps the order. */
  lemma SortedCons(store: map<CapsuleId, Capsule>, x: CapsuleId, s: seq<CapsuleId>)
    requires SortedByUnlockDate(store, s)
    requires |s| == 0 || DateOf(store, x) <= DateOf(store, s[0])
    ensures SortedByUnlockDate(store, [x] + s)
  {
    var r := [x] + s;
    forall i, j | 0 <= i < j < |r| ensures DateOf(store, r[i]) <= DateOf(store, r[j]) {
      if i == 0 {
        assert r[j] == s[j - 1];
        if j > 1 { assert DateOf(store, s[0]) <= DateOf(store, s[j - 1]); }
      } else {
        assert r[i] == s[i - 1] && r[j] == s[j - 1];
      }
    }
  }

  /** The head of a sorted list unlocks no later than anything inserted into its tail after it. */
  lemma InsertedTailBound(store: map<CapsuleId, Capsule>, ids: seq<CapsuleId>, k: CapsuleId, tail: seq<CapsuleId>)
    requires SortedByUnlockDate(store, ids) && |ids| > 0
    requires DateOf(store, ids[0]) < DateOf(store, k)
    requires multiset(tail) == multiset(ids[1..]) + multiset{k}
    ensures |tail| == 0 || DateOf(store, ids[0]) <= DateOf(store, tail[0])
  {
    if |tail| > 0 && tail[0] != k {
      assert tail[0] in multiset(tail);
      assert tail[0] in ids[1..];
      var j :| 0 <= j < |ids[1..]| && ids[1..][j] == tail[0];
      assert ids[j + 1] == tail[0];
    }
  }

  /** The ids of the capsules `u` created (recipients do not count). */
  function CreatedBy(store: map<CapsuleId, Capsule>, u: UserId): set<CapsuleId> {
    set k | k in store && store[k].creator == u
  }

  /**
    `findUserCapsules`: the capsules `u` created, each listed once, in
    ascending unlock-date order (the order among equal dates is left open).
  */
  method FindUserCapsules(store: map<CapsuleId, Capsule>, u: UserId) returns (ids: seq<CapsuleId>)
    ensures multiset(ids) == multiset(CreatedBy(store, u))
    ensures SortedByUnlockDate(store, ids)
  {
    var pending := CreatedBy(store, u);
    ids := [];
    while pending != {}
      invariant pending <= CreatedBy(store, u)
      invariant multiset(ids) == multiset(CreatedBy(store, u) - pending)
      invariant SortedByUnlockDate(store, ids)
      decreases pending
    {
      var k :| k in pending;
      ghost var done := CreatedBy(store, u) - pending;
      assert CreatedBy(store, u) - (pending - {k}) == done + {k};
      assert k !in done;
      ids := InsertByUnlockDate(store, ids, k);
      pending := pending - {k};
    }
  }

  /** The list `findUserCapsules` returns holds every created capsule exactly once. */
  lemma FindUserCapsulesExact(store: map<CapsuleId, Capsule>, u: UserId, ids: seq<CapsuleId>)
    requires multiset(ids) == multiset(CreatedBy(store, u))
    ensures forall k :: k in ids <==> k in store && store[k].creator == u
    ensures forall i, j :: 0 <= i < j < |ids| ==> ids[i] != ids[j]
  {
    forall k ensures k in ids <==> k in store && store[k].creator == u {
      assert k in ids <==> k in multiset(ids);
    }
    forall i, j | 0 <= i < j < |ids| ensures ids[i] != ids[j] {
      if ids[i] == ids[j] {
        RepeatedElementCount(ids, i, j);
      }
    }
  }

  lemma RepeatedElementCount<T>(s: seq<T>, i: nat, j: nat)
    requires i < j < |s| && s[i] == s[j]
    ensures multiset(s)[s[i]] >= 2
  {
    var x := s[i];
    assert s == s[..i] + [x] + s[i + 1..];
    assert x in s[i + 1..] by { assert s[i + 1..][j - i - 1] == x; }
    assert multiset(s) == multiset(s[..i]) + multiset{x} + multiset(s[i + 1..]);
  }
}

=== FILE: capsule_service.dfy ===
/**
  The capsule lifecycle service: create, the locked-to-unlocked sweep, read
  with its access and time checks, the per-user listing, and the
  creator-only update, delete and send. Every operation is a function of the
  store (and of the user collection for `send`); the current time is the
  parameter `now`.
*/
module CapsuleService {
  import opened Wrappers
  import opened CapsuleSchema
  import UserService
  import Seqs
  import Text

  type Store = map<CapsuleId, Capsule>

  datatype ServiceError =
    | Invalid(paths: set<Path>)  // the new document failed validation
    | DuplicateId                // the fresh id handed to `create` is already used
    | NotFound                   // "Capsule not found"
    | AccessDenied               // "Access denied"
    | StillLocked                // "Capsule is still locked"
    | NotCreator                 // update, delete or send by someone else
    | AlreadyUnlocked            // "Cannot update unlocked capsule"
    | UnregisteredRecipient      // "One or more recipients are not registered users"

  // ---------------------------------------------------------------- access

  /** `recipients.some(r => r === userId)`. */
  function AnyRecipientIs(recipients: seq<UserId>, u: UserId): (r: bool)
    ensures r <==> u in recipients
  {
    if |recipients| == 0 then false
    else recipients[0] == u || AnyRecipientIs(recipients[1..], u)
  }

  /** `hasAccess`: the capsule is public, or `u` created it, or `u` is a recipient. */
  function HasAccess(c: Capsule, u: UserId): (r: bool)
    ensures r <==> c.isPublic || c.creator == u || u in c.recipients
  {
    c.isPublic || c.creator == u || AnyRecipientIs(c.recipients, u)
  }

  /** Every user may read the capsules `findPublicCapsules` lists. */
  lemma PublicCapsulesAreReadableByAll(store: Store, k: CapsuleId, u: UserId)
    requires k in FindPublicCapsules(store)
    ensures HasAccess(store[k], u)
  {
  }

  // ---------------------------------------------------------------- create

  /**
    `createCapsule`: the caller's data with `creator` overwritten by the
    caller, validated and stored under the fresh id.
  */
  function CreateCapsule(store: Store, data: CapsuleData, caller: UserId, id: CapsuleId)
    : (r: Result<(Store, Capsule), ServiceError>)
    ensures r.Ok? <==> Build(data.(creator := Some(caller))).Ok? && id !in store
    ensures r.Ok? ==> && r.value.1 == Build(data.(creator := Some(caller))).value
                      && r.value.1.creator == caller
                      && r.value.0 == store[id := r.value.1]
    ensures Build(data.(creator := Some(caller))).Err? ==>
              r == Err(Invalid(Build(data.(creator := Some(caller))).error.paths))
    ensures r.Err? && r.error.Invalid? ==> CreatorPath !in r.error.paths
  {
    match Build(data.(creator := Some(caller)))
    case Err(e) => Err(Invalid(e.paths))
    case Ok(c) => if id in store then Err(DuplicateId) else Ok((store[id := c], c))
  }

  /** Whatever creator the data names, the caller becomes the creator. */
  lemma CreateIgnoresSuppliedCreator(store: Store, data: CapsuleData, caller: UserId, other: UserId, id: CapsuleId)
    ensures CreateCapsule(store, data.(creator := Some(other)), caller, id)
            == CreateCapsule(store, data.(creator := None), caller, id)
  {
    assert data.(creator := Some(other)).(creator := Some(caller))
           == data.(creator := None).(creator := Some(caller));
  }

  /**
    Every other supplied field is stored as given: a supplied status,
    recipient list or public flag is kept, not overridden.
  */
  lemma CreateKeepsSuppliedFields(store: Store, data: CapsuleData, caller: UserId, id: CapsuleId)
    requires CreateCapsule(store, data, caller, id).Ok?
    ensures var c := CreateCapsule(store, data, caller, id).value.1;
            && (data.recipients.Some? ==> c.recipients == data.recipients.value)
            && (data.isPublic.Some? ==> c.isPublic == data.isPublic.value)
            && (data.mediaUrls.Some? ==> c.mediaUrls == data.mediaUrls.value)
            && (data.status == Some("unlocked") ==> c.status == Unlocked)
            && (data.status == Some("locked") || data.status.None? ==> c.status == Locked)
            && c.content == data.content.value
            && c.unlockDate == data.unlockDate.value
  {
    var c := CreateCapsule(store, data, caller, id).value.1;
    if data.status == Some("unlocked") {
      assert StatusName(c.status) == "unlocked";
      assert c.status == Unlocked by { if c.status == Locked { assert "locked" != "unlocked"; } }
    }
    if data.status == Some("locked") {
      assert StatusName(c.status) == "locked";
      assert c.status == Locked;
    }
  }

  // ---------------------------------------------------------------- sweep

  /** A capsule the sweep unlocks: locked, with its unlock date reached. */
  predicate DueForUnlock(c: Capsule, now: Time) {
    c.status == Locked && c.unlockDate <= now
  }

  /**
    `checkAndUpdateStatus`: one `updateMany` that sets every locked capsule
    whose unlock date is at or before `now` to unlocked.
  */
  function CheckAndUpdateStatus(store: Store, now: Time): (r: Store)
    ensures r.Keys == store.Keys
    ensures forall k :: k in r ==> !DueForUnlock(r[k], now)
    ensures forall k :: k in store && !DueForUnlock(store[k], now) ==> r[k] == store[k]
    ensures forall k :: k in store && DueForUnlock(store[k], now) ==>
              r[k] == store[k].(status := Unlocked)
  {
    map k | k in store :: if DueForUnlock(store[k], now) then store[k].(status := Unlocked) else store[k]
  }

  /** Capsules that unlock later than `now`, and unlocked ones, are left alone. */
  lemma SweepLeavesOthersAlone(store: Store, now: Time, k: CapsuleId)
    requires k in store
    requires store[k].unlockDate > now || store[k].status == Unlocked
    ensures CheckAndUpdateStatus(store, now)[k] == store[k]
  {
  }

  /** A locked capsule is unlocked by the sweep exactly when it is ready to unlock. */
  lemma SweepUnlocksExactlyTheReady(store: Store, now: Time, k: CapsuleId)
    requires k in store && store[k].status == Locked
    ensures CheckAndUpdateStatus(store, now)[k].status == Unlocked <==> IsReadyToUnlock(store[k], now)
  {
  }

  /** Running the sweep twice at the same time is running it once. */
  lemma SweepIdempotent(store: Store, now: Time)
    ensures CheckAndUpdateStatus(CheckAndUpdateStatus(store, now), now) == CheckAndUpdateStatus(store, now)
  {
    var once := CheckAndUpdateStatus(store, now);
    var twice := CheckAndUpdateStatus(once, now);
    assert twice.Keys == once.Keys;
    forall k | k in once ensures twice[k] == once[k] {
      assert !DueForUnlock(once[k], now);
    }
  }

  /** An earlier sweep is subsumed by a later one. */
  lemma SweepLaterSubsumesEarlier(store: Store, earlier: Time, later: Time)
    requires earlier <= later
    ensures CheckAndUpdateStatus(CheckAndUpdateStatus(store, earlier), later)
            == CheckAndUpdateStatus(store, later)
  {
    var a := CheckAndUpdateStatus(CheckAndUpdateStatus(store, earlier), later);
    var b := CheckAndUpdateStatus(store, later);
    assert a.Keys == b.Keys;
    forall k | k in a ensures a[k] == b[k] {
      if DueForUnlock(store[k], earlier) {
        assert DueForUnlock(store[k], later);
      }
    }
  }

  // ---------------------------------------------------------------- read

  /**
    `getCapsule`: not found, then access denied, then still locked (a locked
    status with the unlock date not yet reached); otherwise the stored capsule.
    The store is not changed: reading does not unlock.
  */
  function GetCapsule(store: Store, id: CapsuleId, u: UserId, now: Time): (r: Result<Capsule, ServiceError>)
    ensures id !in store ==> r == Err(NotFound)
    ensures id in store && !HasAccess(store[id], u) ==> r == Err(AccessDenied)
    ensures id in store && HasAccess(store[id], u) ==>
              (r == Err(StillLocked) <==> store[id].status == Locked && now < store[id].unlockDate)
    ensures r.Ok? <==> && id in store && HasAccess(store[id], u)
                       && !(store[id].status == Locked && now < store[id].unlockDate)
    ensures r.Ok? ==> id in store && r.value == store[id]
  {
    if id !in store then Err(NotFound)
    else
      var c := store[id];
      if !HasAccess(c, u) then Err(AccessDenied)
      else if c.status == Locked && now < c.unlockDate then Err(StillLocked)
      else Ok(c)
  }

  /** What `getCapsule` returns is readable: accessible, and unlocked or due. */
  lemma GetOnlyReturnsReadable(store: Store, id: CapsuleId, u: UserId, now: Time)
    requires GetCapsule(store, id, u, now).Ok?
    ensures HasAccess(store[id], u)
    ensures store[id].status == Unlocked || IsReadyToUnlock(store[id], now)
  {
  }

  /** A capsule readable at some time stays readable later. */
  lemma GetStaysReadable(store: Store, id: CapsuleId, u: UserId, now: Time, later: Time)
    requires now <= later
    requires GetCapsule(store, id, u, now).Ok?
    ensures GetCapsule(store, id, u, later) == GetCapsule(store, id, u, now)
  {
  }

  /**
    A sweep at or before the read time leaves the success or error kind
    unchanged, and a returned capsule is the swept one: `getCapsule` checks the
    date itself, so a stale `locked` status does not hide a due capsule, and
    unlocking one does not expose it earlier.
  */
  lemma GetUnaffectedBySweep(store: Store, id: CapsuleId, u: UserId, now: Time, sweptAt: Time)
    requires sweptAt <= now
    ensures var before := GetCapsule(store, id, u, now);
            var after := GetCapsule(CheckAndUpdateStatus(store, sweptAt), id, u, now);
            && (before.Ok? <==> after.Ok?)
            && (before.Err? ==> after == before)
            && (after.Ok? ==> after.value == CheckAndUpdateStatus(store, sweptAt)[id])
  {
  }

  // ---------------------------------------------------------------- listing

  /**
    `getUserCapsules`: the capsules `u` created or was sent, under their ids.
    Public capsules of other users are not listed.
  */
  function GetUserCapsules(store: Store, u: UserId): (r: Store)
    ensures forall k :: k in r <==> k in store && (store[k].creator == u || u in store[k].recipients)
    ensures forall k :: k in r ==> r[k] == store[k]
  {
    map k | k in store && (store[k].creator == u || u in store[k].recipients) :: store[k]
  }

  /**
    The listing agrees with `hasAccess` except for public capsules: every listed
    capsule is accessible, and an accessible capsule is left out only when its
    access comes from being public.
  */
  lemma UserCapsulesAreAccessible(store: Store, u: UserId, k: CapsuleId)
    requires k in store
    ensures k in GetUserCapsules(store, u) ==> HasAccess(store[k], u)
    ensures HasAccess(store[k], u) && k !in GetUserCapsules(store, u) ==>
              store[k].isPublic && store[k].creator != u && u !in store[k].recipients
  {
  }

  /** Every capsule `findUserCapsules` lists for `u` is also in `u`'s listing. */
  lemma CreatedCapsulesAreListed(store: Store, u: UserId)
    ensures forall k :: k in CreatedBy(store, u) ==> k in GetUserCapsules(store, u)
  {
  }

  // ---------------------------------------------------------------- update

  /** The fields an update request may set; absent fields are left as they are. */
  datatype Patch = Patch(
    creator: Option<UserId>,
    recipients: Option<seq<UserId>>,
    title: Option<string>,
    content: Option<string>,
    mediaUrls: Option<seq<string>>,
    unlockDate: Option<Time>,
    isPublic: Option<bool>,
    status: Option<Status>)

  /** `findByIdAndUpdate`'s `$set`: supplied fields replace stored ones, the title trimmed by its setter. */
  function ApplyPatch(c: Capsule, p: Patch): (r: Capsule)
    ensures r.creator == p.creator.GetOr(c.creator)
    ensures r.recipients == p.recipients.GetOr(c.recipients)
    ensures p.title.Some? ==> r.title == Text.Trim(p.title.value)
    ensures p.title.None? ==> r.title == c.title
    ensures r.content == p.content.GetOr(c.content)
    ensures r.mediaUrls == p.mediaUrls.GetOr(c.mediaUrls)
    ensures r.unlockDate == p.unlockDate.GetOr(c.unlockDate)
    ensures r.isPublic == p.isPublic.GetOr(c.isPublic)
    ensures r.status == p.status.GetOr(c.status)
  {
    Capsule(
      creator := p.creator.GetOr(c.creator),
      recipients := p.recipients.GetOr(c.recipients),
      title := if p.title.Some? then Text.Trim(p.title.value) else c.title,
      content := p.content.GetOr(c.content),
      mediaUrls := p.mediaUrls.GetOr(c.mediaUrls),
      unlockDate := p.unlockDate.GetOr(c.unlockDate),
      isPublic := p.isPublic.GetOr(c.isPublic),
      status := p.status.GetOr(c.status))
  }

  /**
    `updateCapsule`: only the creator, only while locked; the patched capsule
    replaces the stored one and nothing else changes.
  */
  function UpdateCapsule(store: Store, id: CapsuleId, u: UserId, patch: Patch)
    : (r: Result<(Store, Capsule), ServiceError>)
    ensures id !in store ==> r == Err(NotFound)
    ensures id in store && store[id].creator != u ==> r == Err(NotCreator)
    ensures id in store && store[id].creator == u && store[id].status == Unlocked ==> r == Err(AlreadyUnlocked)
    ensures r.Ok? <==> id in store && store[id].creator == u && store[id].status == Locked
    ensures r.Ok? ==> && r.value.1 == ApplyPatch(store[id], patch)
                      && r.value.0 == store[id := r.value.1]
  {
    if id !in store then Err(NotFound)
    else
      var c := store[id];
      if c.creator != u then Err(NotCreator)
      else if c.status == Unlocked then Err(AlreadyUnlocked)
      else
        var c' := ApplyPatch(c, patch);
        Ok((store[id := c'], c'))
  }

  /** A successful update changes the target capsule and no other. */
  lemma UpdateChangesOnlyTarget(store: Store, id: CapsuleId, u: UserId, patch: Patch)
    requires id in store && store[id].creator == u && store[id].status == Locked
    ensures UpdateCapsule(store, id, u, patch).Ok?
    ensures var store' := UpdateCapsule(store, id, u, patch).value.0;
            && store'.Keys == store.Keys
            && store'[id] == ApplyPatch(store[id], patch)
            && forall k :: k in store && k != id ==> store'[k] == store[k]
  {
  }

  // ---------------------------------------------------------------- delete

  /** `deleteCapsule`: only the creator; the status is not checked. */
  function DeleteCapsule(store: Store, id: CapsuleId, u: UserId): (r: Result<Store, ServiceError>)
    ensures id !in store ==> r == Err(NotFound)
    ensures id in store && store[id].creator != u ==> r == Err(NotCreator)
    ensures r.Ok? <==> id in store && store[id].creator == u
    ensures r.Ok? ==> && r.value.Keys == store.Keys - {id}
                      && forall k :: k in r.value ==> r.value[k] == store[k]
  {
    if id !in store then Err(NotFound)
    else if store[id].creator != u then Err(NotCreator)
    else Ok(store - {id})
  }

  /**
    Unlike update, delete succeeds on an unlocked capsule: the server does not
    freeze unlocked capsules against deletion.
  */
  lemma DeleteIgnoresStatus(store: Store, id: CapsuleId)
    requires id in store && store[id].status == Unlocked
    ensures DeleteCapsule(store, id, store[id].creator).Ok?
    ensures UpdateCapsule(store, id, store[id].creator, Patch(None, None, None, None, None, None, None, None))
            == Err(AlreadyUnlocked)
  {
  }

  // ---------------------------------------------------------------- send

  /** `User.find({ email: { $in: emails } })`: the users with a listed email, in storage order. */
  function FindByEmails(users: seq<UserService.User>, emails: seq<string>): (r: seq<UserService.User>)
    ensures forall x :: x in r <==> x in users && x.email in emails
    ensures forall x :: multiset(r)[x] == if x.email in emails then multiset(users)[x] else 0
    ensures |r| <= |users|
  {
    if |users| == 0 then []
    else
      var rest := FindByEmails(users[1..], emails);
      assert users == [users[0]] + users[1..];
      assert multiset(users) == multiset{users[0]} + multiset(users[1..]);
      if users[0].email in emails then
        assert multiset([users[0]] + rest) == multiset{users[0]} + multiset(rest);
        [users[0]] + rest
      else rest
  }

  /** `recipients.map(user => user._id)`. */
  function IdsOf(users: seq<UserService.User>): (r: seq<UserId>)
    ensures |r| == |users|
    ensures forall i :: 0 <= i < |users| ==> r[i] == users[i].id
  {
    seq(|users|, i requires 0 <= i < |users| => users[i].id)
  }

  /**
    `sendCapsule`: only the creator; every email must resolve to a registered
    user (the count of users found must equal the count of emails given), or
    nothing changes. The re-locked document is then saved, and `save()` runs
    the schema validators again, so a stored blank title or empty content makes
    the send fail. On success the recipients are replaced by the resolved users
    and the status is set back to locked.
  */
  function SendCapsule(store: Store, users: seq<UserService.User>, id: CapsuleId,
                       emails: seq<string>, u: UserId): (r: Result<(Store, Capsule), ServiceError>)
    ensures id !in store ==> r == Err(NotFound)
    ensures id in store && store[id].creator != u ==> r == Err(NotCreator)
    ensures id in store && store[id].creator == u ==>
              (r.Ok? <==> |FindByEmails(users, emails)| == |emails| && StoredInvalidPaths(store[id]) == {})
    ensures id in store && store[id].creator == u && |FindByEmails(users, emails)| != |emails| ==>
              r == Err(UnregisteredRecipient)
    ensures id in store && store[id].creator == u && |FindByEmails(users, emails)| == |emails|
            && StoredInvalidPaths(store[id]) != {} ==>
              r == Err(Invalid(StoredInvalidPaths(store[id])))
    ensures r.Ok? ==> && id in store && store[id].creator == u
                      && r.value.1 == store[id].(recipients := IdsOf(FindByEmails(users, emails)),
                                                 status := Locked)
                      && r.value.0 == store[id := r.value.1]
  {
    if id !in store then Err(NotFound)
    else
      var c := store[id];
      if c.creator != u then Err(NotCreator)
      else
        var found := FindByEmails(users, emails);
        if |found| != |emails| then Err(UnregisteredRecipient)
        else
          var c' := c.(recipients := IdsOf(found), status := Locked);
          assert StoredInvalidPaths(c') == StoredInvalidPaths(c);
          if StoredInvalidPaths(c') != {} then Err(Invalid(StoredInvalidPaths(c')))
          else Ok((store[id := c'], c'))
  }

  /** The emails of the stored users. */
  ghost function EmailsOf(users: seq<UserService.User>): (r: set<string>)
    ensures forall e :: e in r <==> exists x :: x in users && x.email == e
  {
    set x | x in users :: x.email
  }

  lemma UniqueEmailsTail(users: seq<UserService.User>)
    requires |users| > 0 && UserService.UniqueEmails(users)
    ensures UserService.UniqueEmails(users[1..])
    ensures users[0].email !in EmailsOf(users[1..])
    ensures EmailsOf(users) == {users[0].email} + EmailsOf(users[1..])
  {
    var t := users[1..];
    forall i, j | 0 <= i < j < |t| ensures t[i].email != t[j].email {
      assert t[i] == users[i + 1] && t[j] == users[j + 1];
    }
    assert users == [users[0]] + t;
  }

  /** Adding a fresh element to a set adds one to its intersection with `e` when it is in `e`. */
  lemma IntersectWithFresh(h: string, t: set<string>, e: set<string>)
    requires h !in t
    ensures |({h} + t) * e| == |t * e| + (if h in e then 1 else 0)
  {
    if h in e {
      assert ({h} + t) * e == {h} + t * e;
    } else {
      assert ({h} + t) * e == t * e;
    }
  }

  /** With unique emails, one user is found per distinct registered email asked for. */
  lemma {:induction false} FoundCount(users: seq<UserService.User>, emails: seq<string>)
    requires UserService.UniqueEmails(users)
    ensures |FindByEmails(users, emails)| == |EmailsOf(users) * Seqs.Elements(emails)|
    decreases |users|
  {
    if |users| > 0 {
      var h, t := users[0], users[1..];
      UniqueEmailsTail(users);
      FoundCount(t, emails);
      var e := Seqs.Elements(emails);
      IntersectWithFresh(h.email, EmailsOf(t), e);
      assert h.email in emails <==> h.email in e;
    }
  }

  /**
    With unique user emails, the creator's send succeeds exactly when the
    emails are pairwise distinct, each belongs to a registered user, and the
    stored document still passes validation: an unknown email and a repeated
    email both make it fail.
  */
  lemma SendSucceedsIff(store: Store, users: seq<UserService.User>, id: CapsuleId, emails: seq<string>)
    requires UserService.UniqueEmails(users)
    requires id in store
    ensures SendCapsule(store, users, id, emails, store[id].creator).Ok?
            <==> && Seqs.Distinct(emails)
                 && (forall e :: e in emails ==> e in EmailsOf(users))
                 && StoredInvalidPaths(store[id]) == {}
  {
    var E := Seqs.Elements(emails);
    var R := EmailsOf(users);
    FoundCount(users, emails);
    Seqs.DistinctCount(emails);
    Seqs.SubsetCount(R * E, E);
    if |R * E| == |E| {
      assert forall e :: e in emails ==> e in R by {
        forall e | e in emails ensures e in R {
          assert e in E;
        }
      }
    }
    if forall e :: e in emails ==> e in R {
      assert R * E == E;
    }
  }

  /**
    An update may store a blank title, since `findByIdAndUpdate` runs no
    validators; a later send of that capsule by its (possibly patched) creator
    is then refused by `save()`.
  */
  lemma BlankTitleUpdateBlocksSend(store: Store, id: CapsuleId, u: UserId, patch: Patch,
                                   users: seq<UserService.User>, emails: seq<string>)
    requires id in store && store[id].creator == u && store[id].status == Locked
    requires patch.title.Some? && Text.AllWhitespace(patch.title.value)
    ensures UpdateCapsule(store, id, u, patch).Ok?
    ensures var updated := UpdateCapsule(store, id, u, patch).value.0;
            var r := SendCapsule(updated, users, id, emails, updated[id].creator);
            && r.Err?
            && (|FindByEmails(users, emails)| == |emails| ==> r.error.Invalid? && TitlePath in r.error.paths)
  {
    Text.TrimBlank(patch.title.value);
    var updated := UpdateCapsule(store, id, u, patch).value.0;
    assert updated[id].title == [];
    assert TitlePath in StoredInvalidPaths(updated[id]);
  }

  /**
    A successful send re-locks the capsule, even one already unlocked, and the
    resulting recipients do not depend on the previous ones: a second send
    overwrites the first.
  */
  lemma SendRelocksAndOverwrites(store: Store, users: seq<UserService.User>, id: CapsuleId,
                                 emails: seq<string>, u: UserId, previous: seq<UserId>)
    requires SendCapsule(store, users, id, emails, u).Ok?
    ensures SendCapsule(store, users, id, emails, u).value.1.status == Locked
    ensures var r := SendCapsule(store, users, id, emails, u);
            var store' := store[id := store[id].(recipients := previous)];
            SendCapsule(store', users, id, emails, u) == Ok((store'[id := r.value.1], r.value.1))
  {
    var c' := SendCapsule(store, users, id, emails, u).value.1;
    var store' := store[id := store[id].(recipients := previous)];
    assert store'[id].(recipients := IdsOf(FindByEmails(users, emails)), status := Locked) == c';
  }

  /**
    After a successful send, a user may read the capsule exactly when it is
    public, they created it, or their registered email was among those sent to.
  */
  lemma SendGrantsAccessToResolvedUsers(store: Store, users: seq<UserService.User>, id: CapsuleId,
                                        emails: seq<string>, u: UserId, w: UserId)
    requires SendCapsule(store, users, id, emails, u).Ok?
    ensures var c := SendCapsule(store, users, id, emails, u).value.1;
            HasAccess(c, w) <==> c.isPublic || c.creator == w
                                 || exists x :: x in users && x.id == w && x.email in emails
  {
    var found := FindByEmails(users, emails);
    var ids := IdsOf(found);
    if w in ids {
      var i :| 0 <= i < |ids| && ids[i] == w;
      assert found[i] in found;
    }
    if exists x :: x in users && x.id == w && x.email in emails {
      var x :| x in users && x.id == w && x.email in emails;
      assert x in found;
      var i :| 0 <= i < |found| && found[i] == x;
      assert ids[i] == w;
    }
  }
}

=== FILE: dashboard.dfy ===
/**
  The client-side rules of the dashboard: the checks and payload of the
  create form, recipient-email parsing, and the guard and list update around
  delete. Rendering, notifications and the HTTP calls themselves are not
  modelled; a request is represented by the data it would send.
*/
module Dashboard {
  import opened Wrappers
  import opened CapsuleSchema
  import CapsuleService
  import Text

  // ---------------------------------------------------------------- recipients

  /** `.map(email => email.trim())`. */
  function TrimEach(pieces: seq<string>): (r: seq<string>)
    ensures |r| == |pieces|
    ensures forall i :: 0 <= i < |r| ==> r[i] == Text.Trim(pieces[i])
  {
    if |pieces| == 0 then [] else [Text.Trim(pieces[0])] + TrimEach(pieces[1..])
  }

  /** `.filter(email => email)`: the empty string is falsy and dropped. */
  function DropEmpty(pieces: seq<string>): (r: seq<string>)
    ensures forall x :: x in r <==> x in pieces && x != []
    ensures |r| <= |pieces|
  {
    if |pieces| == 0 then []
    else if pieces[0] == [] then DropEmpty(pieces[1..])
    else [pieces[0]] + DropEmpty(pieces[1..])
  }

  /** A usable recipient entry: non-empty, comma-free, not starting or ending with whitespace. */
  predicate WellFormedEntry(x: string) {
    && x != []
    && ',' !in x
    && !Text.IsWhitespace(x[0])
    && !Text.IsWhitespace(x[|x| - 1])
  }

  /** The recipient field split at commas, each piece trimmed, empty pieces dropped. */
  function ParseRecipients(input: string): (r: seq<string>)
    ensures forall i :: 0 <= i < |r| ==> WellFormedEntry(r[i])
  {
    var pieces := Text.Split(input, ',');
    ParsedEntries(pieces);
    DropEmpty(TrimEach(pieces))
  }

  lemma ParsedEntries(pieces: seq<string>)
    requires forall k :: 0 <= k < |pieces| ==> ',' !in pieces[k]
    ensures forall x :: x in DropEmpty(TrimEach(pieces)) ==> WellFormedEntry(x)
  {
    forall x | x in DropEmpty(TrimEach(pieces)) ensures WellFormedEntry(x) {
      var k :| 0 <= k < |pieces| && TrimEach(pieces)[k] == x;
      Text.TrimKeepsCharacters(pieces[k]);
    }
  }

  /** Input made only of commas and whitespace yields no recipients. */
  lemma ParseRecipientsBlank(input: string)
    requires forall i :: 0 <= i < |input| ==> input[i] == ',' || Text.IsWhitespace(input[i])
    ensures ParseRecipients(input) == []
  {
    var pieces := Text.Split(input, ',');
    forall k | 0 <= k < |pieces| ensures TrimEach(pieces)[k] == [] {
      forall c | c in pieces[k] ensures c in input {
        Text.SplitPieceCharacters(input, ',', k, c);
      }
      BlankPiece(input, pieces[k]);
    }
    DropAllEmpty(TrimEach(pieces));
  }

  lemma BlankPiece(input: string, piece: string)
    requires forall i :: 0 <= i < |input| ==> input[i] == ',' || Text.IsWhitespace(input[i])
    requires ',' !in piece
    requires forall c :: c in piece ==> c in input
    ensures Text.Trim(piece) == []
  {
    forall j | 0 <= j < |piece| ensures Text.IsWhitespace(piece[j]) {
      assert piece[j] in piece;
    }
    Text.TrimBlank(piece);
  }

  lemma DropAllEmpty(pieces: seq<string>)
    requires forall k :: 0 <= k < |pieces| ==> pieces[k] == []
    ensures DropEmpty(pieces) == []
  {
  }

  lemma {:induction false} TrimEachAppend(a: seq<string>, b: seq<string>)
    ensures TrimEach(a + b) == TrimEach(a) + TrimEach(b)
    decreases |a|
  {
    if |a| > 0 {
      assert (a + b)[1..] == a[1..] + b;
      TrimEachAppend(a[1..], b);
    } else {
      assert a + b == b;
    }
  }

  lemma {:induction false} DropEmptyAppend(a: seq<string>, b: seq<string>)
    ensures DropEmpty(a + b) == DropEmpty(a) + DropEmpty(b)
    decreases |a|
  {
    if |a| > 0 {
      assert (a + b)[1..] == a[1..] + b;
      DropEmptyAppend(a[1..], b);
    } else {
      assert a + b == b;
    }
  }

  /** Parsing splits at each comma: the recipients of `a,b` are those of `a` then those of `b`. */
  lemma ParseRecipientsAppend(a: string, b: string)
    ensures ParseRecipients(a + [','] + b) == ParseRecipients(a) + ParseRecipients(b)
  {
    Text.SplitAppend(a, ',', b);
    TrimEachAppend(Text.Split(a, ','), Text.Split(b, ','));
    DropEmptyAppend(TrimEach(Text.Split(a, ',')), TrimEach(Text.Split(b, ',')));
  }

  /** A comma-free entry parses to itself, trimmed, unless it is blank. */
  lemma ParseRecipientsSingle(s: string)
    requires ',' !in s
    ensures ParseRecipients(s) == if Text.Trim(s) == [] then [] else [Text.Trim(s)]
  {
    Text.SplitWithoutSeparator(s, ',');
    assert TrimEach([s]) == [Text.Trim(s)];
  }

  // ---------------------------------------------------------------- create

  /** The create dialog's fields; the unlock date may be cleared. */
  datatype CreateForm = CreateForm(title: string, message: string, unlockDate: Option<Time>, recipientEmails: string)

  /** The capsule posted to the server and the emails posted to `send` afterwards. */
  datatype CreateRequest = CreateRequest(payload: CapsuleData, recipients: seq<string>)

  /** Why the client refuses to send a request. */
  datatype ClientRefusal =
    | MissingRequiredFields  // "Please fill in all required fields"
    | InvalidId              // "Invalid capsule ID"
    | NotConfirmed           // the confirmation dialog was dismissed
    | NotInList              // "Capsule not found" in the local list
    | NotLockedLocally       // "Cannot delete an unlocked capsule"

  /**
    `handleCreateCapsule` up to the first request: refuse a blank title, a blank
    message or a missing date; otherwise post a locked, private capsule with no
    recipients and no media, then send to the parsed emails if there are any.
  */
  function PrepareCreate(form: CreateForm): (r: Result<CreateRequest, ClientRefusal>)
    ensures r.Err? <==> Text.Trim(form.title) == [] || Text.Trim(form.message) == [] || form.unlockDate.None?
    ensures r.Err? ==> r.error == MissingRequiredFields
    ensures r.Ok? ==> && r.value.payload.status == Some("locked")
                      && r.value.payload.isPublic == Some(false)
                      && r.value.payload.recipients == Some([])
                      && r.value.payload.mediaUrls == Some([])
                      && r.value.payload.creator.None?
    ensures r.Ok? ==> && r.value.payload.title == Some(Text.Trim(form.title))
                      && r.value.payload.content == Some(Text.Trim(form.message))
                      && r.value.payload.unlockDate == form.unlockDate
    ensures r.Ok? ==> r.value.recipients == ParseRecipients(form.recipientEmails)
  {
    if Text.Trim(form.title) == [] || Text.Trim(form.message) == [] || form.unlockDate.None? then
      Err(MissingRequiredFields)
    else
      Ok(CreateRequest(
           CapsuleData(
             creator := None,
             recipients := Some([]),
             title := Some(Text.Trim(form.title)),
             content := Some(Text.Trim(form.message)),
             mediaUrls := Some([]),
             unlockDate := form.unlockDate,
             isPublic := Some(false),
             status := Some("locked")),
           ParseRecipients(form.recipientEmails)))
  }

  /** The send request is made only when at least one recipient was parsed. */
  predicate SendsToRecipients(req: CreateRequest) {
    |req.recipients| > 0
  }

  /** A recipient field of commas and whitespace leads to no send request. */
  lemma BlankRecipientsSendNothing(form: CreateForm)
    requires forall i :: 0 <= i < |form.recipientEmails| ==>
               form.recipientEmails[i] == ',' || Text.IsWhitespace(form.recipientEmails[i])
    ensures PrepareCreate(form).Ok? ==> !SendsToRecipients(PrepareCreate(form).value)
  {
    ParseRecipientsBlank(form.recipientEmails);
  }

  /**
    The server accepts what the form posts (given a fresh id), and the stored
    capsule belongs to the caller, is locked and private, has no recipients or
    media, and holds the trimmed title and message.
  */
  lemma CreatedFromFormIsLockedAndPrivate(form: CreateForm, store: CapsuleService.Store, caller: UserId, id: CapsuleId)
    requires Text.Trim(form.title) != [] && Text.Trim(form.message) != [] && form.unlockDate.Some?
    requires id !in store
    ensures PrepareCreate(form).Ok?
    ensures var r := CapsuleService.CreateCapsule(store, PrepareCreate(form).value.payload, caller, id);
            && r.Ok?
            && r.value.1.creator == caller
            && r.value.1.status == Locked
            && !r.value.1.isPublic
            && r.value.1.recipients == [] && r.value.1.mediaUrls == []
            && r.value.1.title == Text.Trim(form.title)
            && r.value.1.content == Text.Trim(form.message)
  {
    var data := PrepareCreate(form).value.payload.(creator := Some(caller));
    Text.TrimIdempotent(form.title);
    assert TitleOk(data);
    assert ContentOk(data);
    assert StatusOk(data);
    var c := Build(data).value;
    assert StatusName(c.status) == "locked";
    assert c.status == Locked;
  }

  // ---------------------------------------------------------------- delete

  /** An entry of the dashboard's local capsule list. */
  datatype ListedCapsule = ListedCapsule(id: CapsuleId, capsule: Capsule)

  /** `capsules.find(c => c._id === id)`: the first entry with the id. */
  function FindListed(list: seq<ListedCapsule>, id: CapsuleId): (r: Option<ListedCapsule>)
    ensures r.Some? ==> r.value in list && r.value.id == id
    ensures r.Some? ==> exists i :: 0 <= i < |list| && list[i] == r.value
                                    && forall j :: 0 <= j < i ==> list[j].id != id
    ensures r.None? ==> forall e :: e in list ==> e.id != id
  {
    if |list| == 0 then None
    else if list[0].id == id then Some(list[0])
    else
      var r := FindListed(list[1..], id);
      if r.Some? then
        var i :| 0 <= i < |list[1..]| && list[1..][i] == r.value
                 && forall j :: 0 <= j < i ==> list[1..][j].id != id;
        assert list[i + 1] == r.value;
        assert forall j :: 0 <= j < i + 1 ==> list[j].id != id by {
          forall j | 0 <= j < i + 1 ensures list[j].id != id {
            if j > 0 { assert list[j] == list[1..][j - 1]; }
          }
        }
        r
      else r
  }

  /**
    `handleDeleteCapsule` before its request: refuse a missing id, a dismissed
    confirmation, an id absent from the local list, and a capsule whose first
    entry in the list is not locked; otherwise request deletion of that id.
  */
  function CheckDelete(list: seq<ListedCapsule>, id: Option<CapsuleId>, confirmed: bool)
    : (r: Result<CapsuleId, ClientRefusal>)
    ensures id.None? ==> r == Err(InvalidId)
    ensures id.Some? && !confirmed ==> r == Err(NotConfirmed)
    ensures id.Some? && confirmed && (forall e :: e in list ==> e.id != id.value) ==> r == Err(NotInList)
    ensures id.Some? && confirmed && FindListed(list, id.value).Some? ==>
              (r.Ok? <==> FindListed(list, id.value).value.capsule.status == Locked)
    ensures id.Some? && confirmed && FindListed(list, id.value).Some? && r.Err? ==>
              r == Err(NotLockedLocally)
    ensures r == Err(NotLockedLocally) ==>
              exists e :: e in list && e.id == id.value && e.capsule.status != Locked
    ensures r.Ok? ==> && id == Some(r.value) && confirmed
                      && exists e :: e in list && e.id == r.value && e.capsule.status == Locked
  {
    if id.None? then Err(InvalidId)
    else if !confirmed then Err(NotConfirmed)
    else
      var found := FindListed(list, id.value);
      if found.None? then Err(NotInList)
      else if found.value.capsule.status != Locked then Err(NotLockedLocally)
      else Ok(id.value)
  }

  /** The client never asks to delete a capsule its list shows as unlocked (ids listed once). */
  lemma CheckDeleteRefusesUnlocked(list: seq<ListedCapsule>, i: nat, confirmed: bool)
    requires i < |list| && list[i].capsule.status == Unlocked
    requires forall j, k :: 0 <= j < k < |list| ==> list[j].id != list[k].id
    ensures CheckDelete(list, Some(list[i].id), confirmed).Err?
  {
    var found := FindListed(list, list[i].id);
    if found.Some? {
      var j :| 0 <= j < |list| && list[j] == found.value;
      assert j == i;
    }
  }

  /** `prevCapsules.filter(capsule => capsule._id !== id)` after a successful delete. */
  function RemoveFromList(list: seq<ListedCapsule>, id: CapsuleId): (r: seq<ListedCapsule>)
    ensures forall e: ListedCapsule :: e.id != id ==> multiset(r)[e] == multiset(list)[e]
    ensures forall e :: e in r ==> e.id != id
  {
    if |list| == 0 then []
    else
      assert list == [list[0]] + list[1..];
      if list[0].id == id then RemoveFromList(list[1..], id)
      else [list[0]] + RemoveFromList(list[1..], id)
  }

  /** Removal works piecewise, so the remaining entries keep their relative order. */
  lemma {:induction false} RemoveFromListAppend(a: seq<ListedCapsule>, b: seq<ListedCapsule>, id: CapsuleId)
    ensures RemoveFromList(a + b, id) == RemoveFromList(a, id) + RemoveFromList(b, id)
    decreases |a|
  {
    if |a| > 0 {
      assert (a + b)[1..] == a[1..] + b;
      RemoveFromListAppend(a[1..], b, id);
    } else {
      assert a + b == b;
    }
  }

  /** A list without the id is left as it is. */
  lemma {:induction false} RemoveFromListAbsent(list: seq<ListedCapsule>, id: CapsuleId)
    requires forall e :: e in list ==> e.id != id
    ensures RemoveFromList(list, id) == list
    decreases |list|
  {
    if |list| > 0 {
      assert list[0] in list;
      RemoveFromListAbsent(list[1..], id);
      assert list == [list[0]] + list[1..];
    }
  }
}

=== FILE: seqs.dfy ===
/** Facts about sequences used where the source counts or deduplicates. */
module Seqs {

  /** No element occurs twice. */
  predicate Distinct<T(==)>(s: seq<T>) {
    forall i, j :: 0 <= i < j < |s| ==> s[i] != s[j]
  }

  /** The elements of `s`, forgetting order and repetition. */
  ghost function Elements<T(!new)>(s: seq<T>): (r: set<T>)
    ensures forall x :: x in r <==> x in s
  {
    set x | x in s
  }

  /**
    A sequence has at least as many positions as distinct elements, and
    exactly as many when no element repeats.
  */
  lemma {:induction false} DistinctCount<T(!new)>(s: seq<T>)
    ensures |Elements(s)| <= |s|
    ensures |Elements(s)| == |s| <==> Distinct(s)
    decreases |s|
  {
    if s != [] {
      var h, t := s[0], s[1..];
      DistinctCount(t);
      assert s == [h] + t;
      assert Elements(s) == {h} + Elements(t);
      if h in t {
        assert Elements(s) == Elements(t);
        var k :| 0 <= k < |t| && t[k] == h;
        assert s[0] == s[k + 1];
      } else {
        assert Distinct(s) <==> Distinct(t) by {
          if Distinct(t) {
            forall i, j | 0 <= i < j < |s| ensures s[i] != s[j] {
              if i > 0 {
                assert s[i] == t[i - 1] && s[j] == t[j - 1];
              } else {
                assert s[j] == t[j - 1];
              }
            }
          }
          if Distinct(s) {
            forall i, j | 0 <= i < j < |t| ensures t[i] != t[j] {
              assert t[i] == s[i + 1] && t[j] == s[j + 1];
            }
          }
        }
      }
    }
  }

  /** A subset is no larger than its superset, and one of the same size is all of it. */
  lemma SubsetCount<T>(a: set<T>, b: set<T>)
    requires a <= b
    ensures |a| <= |b|
    ensures |a| == |b| ==> a == b
  {
    var rest := b - a;
    assert b == a + rest;
    assert a * rest == {};
    if |a| == |b| {
      assert |rest| == 0;
    }
  }
}

=== FILE: text.dfy ===
/**
  String helpers with the JavaScript semantics the application relies on:
  `String.prototype.trim` (also what a Mongoose `trim: true` setter calls) and
  `String.prototype.split` on a one-character separator.
*/
module Text {

  /**
    The characters `trim` removes: ECMAScript WhiteSpace (tab, vertical tab,
    form feed, space, no-break space, byte order mark and the Unicode space
    separators) and LineTerminator (line feed, carriage return, line and
    paragraph separators).
  */
  predicate IsWhitespace(c: char) {
    || ('\t' <= c <= '\r')
    || c == ' '
    || c == '\U{00A0}'
    || c == '\U{1680}'
    || ('\U{2000}' <= c <= '\U{200A}')
    || c == '\U{2028}'
    || c == '\U{2029}'
    || c == '\U{202F}'
    || c == '\U{205F}'
    || c == '\U{3000}'
    || c == '\U{FEFF}'
  }

  predicate AllWhitespace(s: string) {
    forall i :: 0 <= i < |s| ==> IsWhitespace(s[i])
  }

  /** `s` with its leading whitespace removed. */
  function TrimStart(s: string): (r: string)
    ensures |r| <= |s| && r == s[|s| - |r|..]
    ensures AllWhitespace(s[..|s| - |r|])
    ensures r == [] || !IsWhitespace(r[0])
    decreases |s|
  {
    if |s| > 0 && IsWhitespace(s[0]) then
      var r := TrimStart(s[1..]);
      assert s[..|s| - |r|] == [s[0]] + s[1..][..|s| - 1 - |r|];
      r
    else s
  }

  /** `s` with its trailing whitespace removed. */
  function TrimEnd(s: string): (r: string)
    ensures |r| <= |s| && r == s[..|r|]
    ensures AllWhitespace(s[|r|..])
    ensures r == [] || !IsWhitespace(r[|r| - 1])
    decreases |s|
  {
    if |s| > 0 && IsWhitespace(s[|s| - 1]) then
      var r := TrimEnd(s[..|s| - 1]);
      assert s[|r|..] == s[..|s| - 1][|r|..] + [s[|s| - 1]];
      r
    else s
  }

  /**
    JavaScript `trim`: `s` without its leading and trailing whitespace. The
    lemmas below state that nothing else is removed.
  */
  function Trim(s: string): (r: string)
    ensures |r| <= |s|
    ensures r == [] || (!IsWhitespace(r[0]) && !IsWhitespace(r[|r| - 1]))
  {
    TrimEnd(TrimStart(s))
  }

  /** `Trim(s)` is the infix of `s` left after removing whitespace at the two ends. */
  lemma TrimIsInfix(s: string)
    ensures exists i :: 0 <= i <= |s| - |Trim(s)|
                        && Trim(s) == s[i..i + |Trim(s)|]
                        && AllWhitespace(s[..i])
                        && AllWhitespace(s[i + |Trim(s)|..])
  {
    var t := TrimStart(s);
    var r := TrimEnd(t);
    var i := |s| - |t|;
    TrimInfix(s, i, t, r);
    assert Trim(s) == r;
    assert 0 <= i <= |s| - |r| && r == s[i..i + |r|] && AllWhitespace(s[..i]) && AllWhitespace(s[i + |r|..]);
  }

  /** Every character of `Trim(s)` occurs in `s`. */
  lemma TrimKeepsCharacters(s: string)
    ensures forall c :: c in Trim(s) ==> c in s
  {
    var t := TrimStart(s);
    var i := |s| - |t|;
    TrimInfix(s, i, t, TrimEnd(t));
    InfixCharacters(s, i, Trim(s));
  }

  /** `Trim(s)` is empty exactly when `s` is whitespace only. */
  lemma TrimBlank(s: string)
    ensures Trim(s) == [] <==> AllWhitespace(s)
  {
    var t := TrimStart(s);
    var i := |s| - |t|;
    TrimInfix(s, i, t, TrimEnd(t));
    BlankInfix(s, i, Trim(s));
  }

  /** Taking a prefix of a suffix of `s` takes an infix of `s`. */
  lemma TrimInfix(s: string, i: nat, t: string, r: string)
    requires i <= |s| && t == s[i..] && |r| <= |t| && r == t[..|r|]
    requires AllWhitespace(t[|r|..])
    ensures r == s[i..i + |r|]
    ensures AllWhitespace(s[i + |r|..])
  {
    assert s[i + |r|..] == t[|r|..];
  }

  lemma InfixCharacters(s: string, i: nat, r: string)
    requires i + |r| <= |s| && r == s[i..i + |r|]
    ensures forall c :: c in r ==> c in s
  {
    forall c | c in r ensures c in s {
      var k :| 0 <= k < |r| && r[k] == c;
      assert s[i + k] == c;
    }
  }

  lemma BlankInfix(s: string, i: nat, r: string)
    requires i + |r| <= |s| && r == s[i..i + |r|]
    requires AllWhitespace(s[..i]) && AllWhitespace(s[i + |r|..])
    requires r == [] || !IsWhitespace(r[0])
    ensures r == [] <==> AllWhitespace(s)
  {
    if r == [] {
      forall k | 0 <= k < |s| ensures IsWhitespace(s[k]) {
        if k < i {
          assert s[k] == s[..i][k];
        } else {
          assert s[k] == s[i..][k - i];
        }
      }
    } else {
      assert r[0] == s[i];
    }
  }

  /** Trimming twice is trimming once. */
  lemma TrimIdempotent(s: string)
    ensures Trim(Trim(s)) == Trim(s)
  {
    var r := Trim(s);
    assert TrimStart(r) == r;
    assert TrimEnd(r) == r;
  }

  /**
    JavaScript `s.split(sep)` for a one-character separator: the pieces between
    separators, including empty ones, so there is always at least one piece.
  */
  function Split(s: string, sep: char): (r: seq<string>)
    ensures |r| >= 1
    ensures forall i :: 0 <= i < |r| ==> sep !in r[i]
    decreases |s|
  {
    if s == [] then [[]]
    else
      var rest := Split(s[1..], sep);
      if s[0] == sep then [[]] + rest
      else [[s[0]] + rest[0]] + rest[1..]
  }

  /** Every character of a piece comes from the split string. */
  lemma {:induction false} SplitPieceCharacters(s: string, sep: char, i: nat, c: char)
    requires i < |Split(s, sep)| && c in Split(s, sep)[i]
    ensures c in s
    decreases |s|
  {
    if s != [] {
      var rest := Split(s[1..], sep);
      if s[0] == sep {
        if i > 0 {
          assert Split(s, sep)[i] == rest[i - 1];
          SplitPieceCharacters(s[1..], sep, i - 1, c);
        }
      } else if i == 0 {
        if c != s[0] {
          assert c in rest[0];
          SplitPieceCharacters(s[1..], sep, 0, c);
        }
      } else {
        assert Split(s, sep)[i] == rest[i];
        SplitPieceCharacters(s[1..], sep, i, c);
      }
    }
  }

  /** JavaScript `pieces.join(sep)`: the pieces with one separator between neighbours. */
  function Join(pieces: seq<string>, sep: char): string
  {
    if |pieces| == 0 then []
    else if |pieces| == 1 then pieces[0]
    else pieces[0] + [sep] + Join(pieces[1..], sep)
  }

  /** Joining the pieces of a split gives back the original string. */
  lemma {:induction false} JoinSplit(s: string, sep: char)
    ensures Join(Split(s, sep), sep) == s
    decreases |s|
  {
    if s != [] {
      var rest := Split(s[1..], sep);
      JoinSplit(s[1..], sep);
      if s[0] == sep {
        assert Split(s, sep) == [[]] + rest;
        assert Join(Split(s, sep), sep) == [] + [sep] + Join(rest, sep);
        assert s == [s[0]] + s[1..];
      } else if |rest| == 1 {
        assert Split(s, sep) == [[s[0]] + rest[0]];
        assert s == [s[0]] + s[1..];
      } else {
        var head := [s[0]] + rest[0];
        assert Split(s, sep) == [head] + rest[1..];
        assert ([head] + rest[1..])[1..] == rest[1..];
        assert Join(Split(s, sep), sep) == head + [sep] + Join(rest[1..], sep);
        assert Join(rest, sep) == rest[0] + [sep] + Join(rest[1..], sep);
        assert s == [s[0]] + s[1..];
      }
    }
  }

  /** Splitting at a separator splits the two sides independently. */
  lemma {:induction false} SplitAppend(a: string, sep: char, b: string)
    ensures Split(a + [sep] + b, sep) == Split(a, sep) + Split(b, sep)
    decreases |a|
  {
    if a == [] {
      assert a + [sep] + b == [sep] + b;
      SplitCons(sep, b, sep);
    } else {
      var c, a' := a[0], a[1..];
      assert a == [c] + a';
      assert a + [sep] + b == [c] + (a' + [sep] + b);
      SplitAppend(a', sep, b);
      SplitCons(c, a' + [sep] + b, sep);
      SplitCons(c, a', sep);
      if c != sep {
        ExtendFirstPiece(c, Split(a', sep), Split(b, sep));
      }
    }
  }

  /** Extending the first piece of `left + right` extends the first piece of `left`. */
  lemma ExtendFirstPiece(c: char, left: seq<string>, right: seq<string>)
    requires |left| >= 1
    ensures [[c] + (left + right)[0]] + (left + right)[1..] == ([[c] + left[0]] + left[1..]) + right
  {
    assert (left + right)[0] == left[0];
    assert (left + right)[1..] == left[1..] + right;
  }

  /** One step of `Split`: how the first character extends the pieces of the rest. */
  lemma SplitCons(c: char, t: string, sep: char)
    ensures Split([c] + t, sep) == if c == sep then [[]] + Split(t, sep)
                                   else [[c] + Split(t, sep)[0]] + Split(t, sep)[1..]
  {
    assert ([c] + t)[0] == c;
    assert ([c] + t)[1..] == t;
  }

  /** A string without the separator is a single piece. */
  lemma {:induction false} SplitWithoutSeparator(s: string, sep: char)
    requires sep !in s
    ensures Split(s, sep) == [s]
    decreases |s|
  {
    if s != [] {
      SplitWithoutSeparator(s[1..], sep);
      assert s == [s[0]] + s[1..];
    }
  }

  /** Splitting a join of separator-free pieces gives back the pieces. */
  lemma {:induction false} SplitJoin(pieces: seq<string>, sep: char)
    requires |pieces| >= 1
    requires forall i :: 0 <= i < |pieces| ==> sep !in pieces[i]
    ensures Split(Join(pieces, sep), sep) == pieces
    decreases |pieces|
  {
    SplitWithoutSeparator(pieces[0], sep);
    if |pieces| > 1 {
      SplitJoin(pieces[1..], sep);
      SplitAppend(pieces[0], sep, Join(pieces[1..], sep));
      assert pieces == [pieces[0]] + pieces[1..];
    }
  }
}

=== FILE: user_service.dfy ===
/**
  Registration, login and token issue. The user collection is a sequence in
  storage order, because `findOne` answers with the first matching document.
  Password hashing and comparison are left to a caller-supplied predicate, and
  token signing is left out: a token is represented by the claims it signs.
*/
module UserService {
  import opened Wrappers

  type UserId = nat

  /** A stored user; `password` is whatever the user model's save hook stored. */
  datatype User = User(id: UserId, username: string, email: string, password: string, role: string)

  /** The body of a registration request. */
  datatype Registration = Registration(username: string, email: string, password: string, role: string)

  /** The user fields that leave the service: no password. */
  datatype PublicUser = PublicUser(id: UserId, username: string, email: string, role: string)

  /** The claims a token carries, and how long it stays valid. */
  datatype TokenClaims = TokenClaims(id: UserId, role: string, expiresInSeconds: nat)

  /** A token is valid for 24 hours after issue. */
  const TokenLifetimeSeconds: nat := 24 * 60 * 60

  /** What `register` and `login` answer with. */
  datatype Session = Session(token: TokenClaims, user: PublicUser)

  datatype AuthError =
    | UserExists          // same email or same username already registered
    | DuplicateId         // the fresh id handed to `Register` is already used
    | InvalidCredentials  // unknown email or wrong password, deliberately alike

  /** No two stored users share an email. */
  predicate UniqueEmails(users: seq<User>) {
    forall i, j :: 0 <= i < j < |users| ==> users[i].email != users[j].email
  }

  /** Emails, usernames and ids are pairwise distinct across the collection. */
  predicate UniqueUsers(users: seq<User>) {
    && UniqueEmails(users)
    && forall i, j :: 0 <= i < j < |users| ==>
         users[i].username != users[j].username && users[i].id != users[j].id
  }

  /** `findOne({ $or: [{ email }, { username }] })`: the first user sharing either. */
  function FindByEmailOrUsername(users: seq<User>, email: string, username: string): (r: Option<User>)
    ensures r.Some? ==> r.value in users && (r.value.email == email || r.value.username == username)
    ensures r.None? ==> forall u :: u in users ==> u.email != email && u.username != username
  {
    if |users| == 0 then None
    else if users[0].email == email || users[0].username == username then Some(users[0])
    else FindByEmailOrUsername(users[1..], email, username)
  }

  /** `findOne({ email })`: the first user with this email. */
  function FindByEmail(users: seq<User>, email: string): (r: Option<User>)
    ensures r.Some? ==> r.value in users && r.value.email == email
    ensures r.Some? ==> exists i :: 0 <= i < |users| && users[i] == r.value
                                    && forall j :: 0 <= j < i ==> users[j].email != email
    ensures r.None? ==> forall u :: u in users ==> u.email != email
  {
    if |users| == 0 then None
    else if users[0].email == email then Some(users[0])
    else
      var r := FindByEmail(users[1..], email);
      if r.Some? then
        var i :| 0 <= i < |users[1..]| && users[1..][i] == r.value
                 && forall j :: 0 <= j < i ==> users[1..][j].email != email;
        assert users[i + 1] == r.value;
        assert forall j :: 0 <= j < i + 1 ==> users[j].email != email by {
          forall j | 0 <= j < i + 1 ensures users[j].email != email {
            if j > 0 { assert users[j] == users[1..][j - 1]; }
          }
        }
        r
      else r
  }

  /** The session handed back for a user: claims `{ id, role }` and the public projection. */
  function GenerateToken(u: User): Session {
    Session(TokenClaims(u.id, u.role, TokenLifetimeSeconds),
            PublicUser(u.id, u.username, u.email, u.role))
  }

  /**
    The password never influences what leaves the service: two users that
    differ only in their password get the same session.
  */
  lemma GenerateTokenIgnoresPassword(u: User, password: string)
    ensures GenerateToken(u.(password := password)) == GenerateToken(u)
    ensures GenerateToken(u).user == PublicUser(u.id, u.username, u.email, u.role)
    ensures GenerateToken(u).token.id == u.id && GenerateToken(u).token.role == u.role
    ensures GenerateToken(u).token.expiresInSeconds == 86400
  {
  }

  /**
    `register`: refused when the email or the username is taken; otherwise the
    new user is appended and a session for it is returned.
  */
  function Register(users: seq<User>, reg: Registration, newId: UserId): (r: Result<(seq<User>, Session), AuthError>)
    ensures r == Err(UserExists) <==>
              exists u :: u in users && (u.email == reg.email || u.username == reg.username)
    ensures r.Ok? ==> && |r.value.0| == |users| + 1
                      && r.value.0[..|users|] == users
                      && r.value.0[|users|] == User(newId, reg.username, reg.email, reg.password, reg.role)
    ensures r.Ok? ==> r.value.1.user == PublicUser(newId, reg.username, reg.email, reg.role)
    ensures r == Err(DuplicateId) ==> exists u :: u in users && u.id == newId
    ensures r.Ok? <==> forall u :: u in users ==>
                         u.email != reg.email && u.username != reg.username && u.id != newId
    ensures r.Ok? ==> r.value.1 == GenerateToken(r.value.0[|users|])
  {
    if FindByEmailOrUsername(users, reg.email, reg.username).Some? then
      Err(UserExists)
    else if exists u :: u in users && u.id == newId then
      Err(DuplicateId)
    else
      var user := User(newId, reg.username, reg.email, reg.password, reg.role);
      assert (users + [user])[..|users|] == users;
      Ok((users + [user], GenerateToken(user)))
  }

  /** Registration keeps emails, usernames and ids unique. */
  lemma RegisterPreservesUniqueness(users: seq<User>, reg: Registration, newId: UserId)
    requires UniqueUsers(users)
    requires Register(users, reg, newId).Ok?
    ensures UniqueUsers(Register(users, reg, newId).value.0)
  {
    var users' := Register(users, reg, newId).value.0;
    forall i, j | 0 <= i < j < |users'|
      ensures users'[i].email != users'[j].email
      ensures users'[i].username != users'[j].username
      ensures users'[i].id != users'[j].id
    {
      if j == |users| {
        assert users'[i] == users[i];
        assert users[i] in users;
      } else {
        assert users'[i] == users[i] && users'[j] == users[j];
      }
    }
  }

  /**
    `login`: the first user with the email, if its stored password matches.
    `passwordMatches(candidate, stored)` stands for the hash comparison.
  */
  function Login(users: seq<User>, email: string, password: string,
                 passwordMatches: (string, string) -> bool): (r: Result<Session, AuthError>)
    ensures r.Err? ==> r.error == InvalidCredentials
    ensures (forall u :: u in users ==> u.email != email) ==> r.Err?
    ensures r.Ok? ==> exists u :: && u in users && u.email == email
                                  && passwordMatches(password, u.password)
                                  && r.value == GenerateToken(u)
  {
    var found := FindByEmail(users, email);
    if found.None? || !passwordMatches(password, found.value.password) then
      Err(InvalidCredentials)
    else
      Ok(GenerateToken(found.value))
  }

  /**
    With unique emails, a successful login answers with the projection of the
    one stored user with that email; a failed one, whatever the reason, with
    the same error.
  */
  lemma LoginFindsTheUser(users: seq<User>, i: nat, password: string,
                          passwordMatches: (string, string) -> bool)
    requires UniqueUsers(users)
    requires i < |users|
    ensures var r := Login(users, users[i].email, password, passwordMatches);
            && (r.Ok? <==> passwordMatches(password, users[i].password))
            && (r.Ok? ==> r.value.user == PublicUser(users[i].id, users[i].username, users[i].email, users[i].role))
            && (r.Err? ==> r == Err(InvalidCredentials))
  {
    var found := FindByEmail(users, users[i].email);
    var k :| 0 <= k < |users| && users[k] == found.value
             && forall j :: 0 <= j < k ==> users[j].email != users[i].email;
    assert k == i;
  }
}

=== FILE: wrappers.dfy ===
/** Failure-carrying return types shared by every module of the model. */
module Wrappers {

  /** An optional value: a field a caller may leave out, or a lookup that may miss. */
  datatype Option<+T> = None | Some(value: T) {

    /** The carried value, or `default` when there is none (a schema default). */
    function GetOr(default: T): T {
      match this
      case Some(v) => v
      case None => default
    }
  }

  /** The outcome of an operation that either succeeds with a value or fails with an error. */
  datatype Result<+T, +E> = Ok(value: T) | Err(error: E)
}
